=== FILE: README.md ===
# django-metrics helpers, modelled in Dafny

This project models the time-bucketing and aggregation core of
`metrics/helpers.py`, the module of django-metrics that turns timestamped
records into the per-interval arrays and chart parameters of a stats page.
The model covers these parts:

- **`datetimeIterator`**: enumerates the bucket boundaries `start, start+inc, …` while they do not pass `end`.
- **`compute_bin`**: places a timestamp into a bucket with Python 2's floor division.
- **`timedelta_to_seconds`**: converts the increment to whole seconds.
- **`processLabels`**: decimates the x-axis labels.
- **Aggregation loop**: adds each record to its bucket and updates the running high and low watermarks after every write. `build_data` and `get_data` share this loop.
- **Add/subtract combination** in `generic_stats`.
- **Chart watermark merge** in `multiline_chart`.
- **25% headroom buffer** with `round_up_to_nearest_ten`.
- **`labels[0] = ''`** blanking.
- **Stride clamp**: a label stride of zero is raised to one.

Timestamps are integer seconds since the epoch. A record is reduced to its
timestamp and the numeric value of the measured field. `value_field=None`
(counting) is the `CountRecords` measure.

The Python 2 semantics are written out:

- **Division and remainder**: `/` on ints floors and `%` takes the sign of the divisor (`PyInt.FloorDiv`, `PyInt.FloorMod`).
- **Quarter of the watermark**: `int(.25 * hw)` truncates toward zero (`PyInt.TruncDiv`).
- **List indexing**: a negative index wraps to the end and an index out of range raises (`PyInt.PyIndex`).
- **Truthiness**: an empty subtract collection is falsy, so it takes the branch without subtraction.
- **Sentinels**: `sys.maxint` is taken as `2^63 - 1`, its value on a 64-bit CPython 2.

Every exception the integer computation can raise is a `Results.Error` value
instead of a precondition (the float overflows of huge watermarks are under
"Left out"):

- `InvalidRange` is the `assert start_date < end_date`.
- `IndexOutOfRange` is a bin outside the bucket list.
- `DivideByZero` covers four divisions:
  - a zero increment in `compute_bin`;
  - a chart width in `[0, 100)` in `processLabels`, which leaves no 100-pixel slot (a negative width does not raise);
  - a buffered high watermark of zero, which the y-grid scale divides by;
  - a single label, because the x-grid scale divides by the label count less one.

One consequence of modelling the list indexing exactly: a record timed less
than one increment before `start` gets bin `-1`. Python reads that as the last
bucket, so the record is silently counted at the end of the range
(`Aggregator.EarlyRecordWrapsToLastBucket`). Records timed within
`[start, end]` always land in their own bucket (`Aggregator.InRangePlacement`).

Modules: `Results`, `PyInt`, `TimeDelta`, `DateRange`, `Binner`,
`Watermarks`, `Aggregator`, `Labels`, `Headroom`, `Charts` and
`ChartProperties` (end-to-end properties and worked scenarios).

## Model

Four helpers have no row of their own. Each is pinned down by the row named next to it:

- `Labels.DateLabel`, which is `date_label_format`: `Labels.DateLabels`.
- `Aggregator.Contribution`, which counts a record or reads its value: `Aggregator.AccumulateSums`.
- `Aggregator.Update`, one step of the aggregation loop: `Aggregator.AccumulateSums`.
- `Headroom.QuarterBuffer`, the quarter of the watermark: `Headroom.BufferedHighWater`.

| member | source | states |
|---|---|---|
| TimeDelta.TimedeltaToSeconds | metrics/helpers.py:11-12 | the seconds returned are the duration's length rounded down to a whole second (microseconds dropped) |
| TimeDelta.SecondsRoundTrip | metrics/helpers.py:11-12 | a whole number of seconds turned into a `timedelta` converts back to itself |
| TimeDelta.DurationRoundTrip | metrics/helpers.py:11-12 | a normalised whole-second `timedelta` is rebuilt exactly from its seconds |
| TimeDelta.PositiveWidthIff | metrics/helpers.py:11-12 | the bucket width is positive exactly when the increment lasts at least one second |
| DateRange.DatetimeRange | metrics/helpers.py:17-24 | the enumeration is non-empty exactly when `start <= end`, starts at `start`, and stays within `[start, end]` |
| DateRange.RangeClosedForm | metrics/helpers.py:17-24 | element `k` is `start + k*inc`, and one more step would pass `end` |
| DateRange.RangeLength | metrics/helpers.py:17-24 | a non-empty range has `(end - start) / inc + 1` boundaries |
| DateRange.RangeStrictlyIncreasing | metrics/helpers.py:17-24 | the boundaries strictly increase |
| Labels.DateLabels | metrics/helpers.py:56-61 | one label per date, for that date, hour-style exactly when the range is shorter than 36 hours |
| Labels.ProcessLabels | metrics/helpers.py:26-40 | fails exactly when `0 <= width < 100`; keeps length and label 0; unchanged when `skip == 0`, otherwise blanks exactly the labels whose index is not a multiple of `skip`; for width ≥ 100, `skip = len / (width / 100)`, and for a negative width `skip <= 0` |
| Labels.SkipZeroIffAllFit | metrics/helpers.py:32-36 | with at least 100 pixels, `skip` is zero exactly when there are fewer labels than 100-pixel slots |
| Labels.NothingBlankedIff | metrics/helpers.py:32-39 | with at least 100 pixels and every label drawn, no label is blanked exactly when there are fewer than twice as many labels as slots |
| Labels.ShownAfterDecimation | metrics/helpers.py:26-40 | decimating all-drawn labels leaves `ceil(n / skip)` of them drawn |
| Labels.ShownBelowTwiceCapacity | metrics/helpers.py:26-40 | because `skip` rounds down, up to but never reaching twice the capacity of labels stay drawn |
| Labels.FiveLabelsInThreeSlots | metrics/helpers.py:26-40 | five labels on a 300-pixel chart give `skip` 1 and all five stay drawn, more than the three that fit |
| Binner.ComputeBin | metrics/helpers.py:42-50 | the bin is the floor of `(ts - start) / inc`: `ts` lies in `[start + k*inc, start + (k+1)*inc)`; a zero increment raises |
| Binner.BinIffInterval | metrics/helpers.py:42-50 | a timestamp bins to `k` exactly when it lies in bucket `k`'s half-open interval |
| Binner.BinOfBoundary | metrics/helpers.py:42-50 | the `k`-th enumerated boundary bins to `k`: binning inverts enumeration |
| Binner.BinInRange | metrics/helpers.py:160-173 | every timestamp in `[start, end]` bins inside the arrays sized by the enumerated dates |
| Headroom.RoundUpToNearestTen | metrics/helpers.py:52-53 | the result is a multiple of ten strictly above `v` and at most `v + 10`, even when `v` is already a multiple |
| Headroom.RoundUpIsLeastMultipleAbove | metrics/helpers.py:52-53 | the rounding gives the least multiple of ten strictly above `v` |
| Headroom.BufferedHighWater | metrics/helpers.py:221-224 | the buffered watermark is a multiple of ten |
| Headroom.BufferedAboveWatermark | metrics/helpers.py:112-115 | for `hw >= 0` the buffer exceeds `hw` and `5*hw < 4*buffered` |
| Headroom.BufferedZeroIff | metrics/helpers.py:227-229 | the buffered watermark is zero, so the y-grid division raises, exactly when `-10 <= hw <= -4` |
| Watermarks.RaiseAll | metrics/helpers.py:212-215 | the running high watermark ends at the maximum of its start and the values, and is one of them |
| Watermarks.LowerAll | metrics/helpers.py:212-215 | the running low watermark ends at the minimum of its start and the values, and is one of them |
| Watermarks.RaiseAllFromSentinel | metrics/helpers.py:183-184 | with no values the high watermark stays at `-maxint`; once a value reaches the sentinel range it is exactly the largest value |
| Aggregator.NewSeries | metrics/helpers.py:64-71 | a fresh series has one zero bucket per date, the high watermark at `-maxint` and the low one at `maxint` |
| Aggregator.Slot | metrics/helpers.py:199-200 | the list position a record's bin reads: a zero width raises; a bin in `[-n, n)` is read, a negative one wrapped by `n`; any other bin raises IndexError |
| Aggregator.Accumulate | metrics/helpers.py:92-102 | the loop succeeds exactly when every record's bin indexes the list, and keeps the length |
| Aggregator.AccumulateSums | metrics/helpers.py:196-203 | each bucket ends at its prior value plus the contributions of the records placed in it |
| Aggregator.AccumulateUnhitUnchanged | metrics/helpers.py:196-203 | a bucket no record is placed in keeps its value |
| Aggregator.AccumulateTotal | metrics/helpers.py:182-204 | the array total grows by exactly the records' total contribution |
| Aggregator.CountingAddsRecordCount | metrics/helpers.py:186-191 | when counting, the array total grows by exactly the number of records |
| Aggregator.AccumulateWatermarks | metrics/helpers.py:100-101 | the watermarks are the max and min of their start and every value ever written, intermediate values included |
| Aggregator.HitBucketWithinWatermarks | metrics/helpers.py:202-203 | every bucket some record hit ends between the low and high watermarks |
| Aggregator.InRangePlacement | metrics/helpers.py:199-200 | a record timed in `[start, end]` is written at index `compute_bin`, without wrap-around |
| Aggregator.InRangeNeverFails | metrics/helpers.py:182-204 | records timed in `[start, end]` never make the loop raise |
| Aggregator.EarlyRecordWrapsToLastBucket | metrics/helpers.py:199-200 | a record less than one increment before `start` is counted in the last bucket |
| Charts.Combine | metrics/helpers.py:209-215 | `totals[i] = adds[i] - subs[i]` for every bucket, negatives included, with the watermarks the exact max and min of the totals |
| Charts.ScaleChart | metrics/helpers.py:221-235 | fails exactly on a zero buffered watermark, a width in `[0, 100)` or a single label; otherwise the labels are decimated and the stride is the decimation's `len / (width / 100)`, or 1 where that is zero |
| Charts.StatsPasses | metrics/helpers.py:206-208 | the add pass always runs and the subtract pass only for a non-empty subtract collection, each into fresh buckets |
| Charts.GenericStats | metrics/helpers.py:158-235 | start must precede end; every list has one entry per date, at least two; label 0 is blank; `hw` is the non-zero buffered peak; totals are `adds - subs` within the watermarks, or the adds themselves with zero subs |
| Charts.BuildAll | metrics/helpers.py:104 | one series per raw series, each the aggregation loop on fresh buckets; any failure aborts |
| Charts.MergeWatermarks | metrics/helpers.py:106-110 | the chart watermarks enclose every series' watermarks and are attained by one of them, or stay at the sentinels |
| Charts.MultilineChart | metrics/helpers.py:83-126 | start must precede end; one series per raw series sized by the dates; `hw` is the non-zero buffered peak; the peak is the largest series watermark |
| ChartProperties.GenericStatsBuckets | metrics/helpers.py:182-208 | each returned add bucket, and each subtract bucket when subtracting, is the sum of the records placed in it |
| ChartProperties.GenericStatsCounts | metrics/helpers.py:186-191 | when counting, the add buckets sum to the number of add records |
| ChartProperties.GenericStatsHitBuckets | metrics/helpers.py:216-219 | without subtraction every bucket an add record hit lies between the unbuffered watermarks |
| ChartProperties.GenericStatsWatermarks | metrics/helpers.py:206-219 | without subtraction the unbuffered watermarks are the max and min of every value the add pass wrote, intermediate values included; with subtraction they are the max and min of the totals |
| ChartProperties.GenericStatsLabels | metrics/helpers.py:175-176 | the stride is non-zero; label 0 is blank, and every other date keeps its own label exactly when its index is a multiple of the stride |
| ChartProperties.GenericStatsSucceeds | metrics/helpers.py:158-235 | with no subtract records, a range of at least one full increment, a width of at least 100 and add records timed in `[start, end]` whose contributions are never negative (counting always qualifies), `generic_stats` succeeds |
| ChartProperties.GenericStatsNoRecords | metrics/helpers.py:183-184 | with no records the unbuffered watermarks stay at the sentinels |
| ChartProperties.GenericStatsInRange | metrics/helpers.py:196-200 | records timed in `[start, end]` can make `generic_stats` fail only by a division by zero |
| ChartProperties.MultilineSeriesSums | metrics/helpers.py:92-104 | every bucket of every series of `multiline_chart` is the sum of the values that series' records placed in it |
| ChartProperties.MultilineLabels | metrics/helpers.py:87-125 | the stride is non-zero; there is one label per date, and a date keeps its own label exactly when its index is a multiple of the stride, label 0 included |
| ChartProperties.MultilineChartSucceeds | metrics/helpers.py:83-126 | with a range of at least one full increment, a width of at least 100 and every series' records timed in `[start, end]` with non-negative values, `multiline_chart` succeeds |
| ChartProperties.DailyScenario | metrics/helpers.py:160-235 | three days, three add records: totals `[5, 10, 0]`, low watermark 3 from an intermediate write, `hw` 30 |
| ChartProperties.DailyScenarioWithSubtraction | metrics/helpers.py:207-215 | the same with a subtract record of 4 on day 1: totals `[5, 6, 0]`, `hw` 20 |
| ChartProperties.TwoSeriesScenario | metrics/helpers.py:86-126 | two series; the chart peak 12 is an intermediate value of a bucket that ends at 10; `hw` 30 and label 0 stays drawn |

## Left out

- The conversion of `datetime` values by `mktime`/`timetuple` (metrics/helpers.py:46-48) depends on the host's time zone. Timestamps are integer seconds from the start.
- Sub-second increments are not modelled. The chart builders and `Binner.ComputeBin` take the increment as its whole seconds, the value `TimeDelta.TimedeltaToSeconds` gives for the source's `timedelta`; `TimeDelta.PositiveWidthIff` says when an increment gives a zero bucket width.
- Date label text is not modelled: Django's `format(timestamp, 'j M')` and `timestamp.hour` are foreign formatting. A label records its style and instant.
- `normalize_data`, the `ygrid` and `xgrid` values (`math.pow` and float division) are floating-point presentation and are not modelled. Their division-by-zero exceptions are modelled.
- Duck-typed record access through `dict.get`/`getattr` (metrics/helpers.py:188-196) is not modelled. Records are `(timestamp, value)` pairs.
- The chart dictionary, its title and its `'%ix%i'` size string (metrics/helpers.py:128-137, 237-244) are presentation only.
- The `end_date` parameter of `compute_bin` is converted but never used in the result, so `Binner.ComputeBin` does not take it.
- `timedelta`'s day range limit (plus or minus 999999999 days) is not modelled: `TimeDelta.Duration` allows any day count.
- `Headroom.BufferedHighWater` computes `int(.25 * hw)` exactly as integer truncation. The source goes through a float, so the two agree only for `|hw| <= 2^53`.
- `Charts.GenericStats` and `Charts.MultilineChart` require a positive increment whenever `start < end`. A zero increment never ends, and a negative one steps down until `datetime` raises `OverflowError` at year 1 (metrics/helpers.py:22-24).
- `datetime`'s year 1 to 9999 range is not modelled. The source raises `OverflowError` when the enumeration steps past it, for instance when `end_date` lies within one increment of `datetime.max` (metrics/helpers.py:24, 86, 160). Instants here are unbounded integers, so the model returns a result there.
- List aliasing is not modelled. Without a truthy subtract collection, `generic_stats` returns the same list object as both totals and adds (metrics/helpers.py:217), so changing one in place changes the other. `Charts.GenericStats` returns two equal, independent values.
- Huge watermarks: the source computes `.25 * hw` as a float and `math.pow(10, factor)` for the y-grid scale (metrics/helpers.py:114, 120, 223, 229). These raise `OverflowError` once the watermark exceeds about `1.8e308` or has more than 309 digits. The model has no such limit and returns a result there.
- Float timestamps: `compute_bin` truncates a float timestamp with `int()` (metrics/helpers.py:43-44). Timestamps here are integers, so the fractional second is not modelled.
- `setup.py` is packaging metadata without logic.

=== FILE: aggregator.dfy ===
/** The per-bucket accumulation shared by `build_data` (inside
    `multiline_chart`) and `get_data` (inside `generic_stats`): each record
    is binned, its value is added to its bucket, and the high and low
    watermarks are compared against that bucket after every single update. */
module Aggregator {
  import opened Results
  import opened Watermarks
  import PyInt
  import Binner
  import DateRange

  /** A record reduced to what the aggregation reads: its timestamp in
      seconds and the numeric value of the measured field. */
  datatype Record = Record(timestamp: int, value: int)

  /** `value_field=None` counts records; otherwise the field is summed. */
  datatype Measure = CountRecords | SumValues

  /** How records are placed and weighed: the start of the range, the
      increment in seconds, and the measure. */
  datatype Binning = Binning(start: int, inc: int, measure: Measure)

  /** `Dataseries`: the bucket totals with the running watermarks. */
  datatype Series = Series(data: seq<int>, hw: int, lw: int)

  /** `Dataseries(size)`: zeroed buckets, watermarks at the sentinels. */
  function NewSeries(n: nat): (s: Series)
    ensures |s.data| == n && forall i :: 0 <= i < n ==> s.data[i] == 0
    ensures s.hw == -MaxInt && s.lw == MaxInt
  {
    Series(seq(n, i => 0), -MaxInt, MaxInt)
  }

  function Contribution(b: Binning, r: Record): int {
    if b.measure.CountRecords? then 1 else r.value
  }

  /** The array position `data[compute_bin(...)]` refers to in a list of `n`
      buckets, with Python's negative-index wrap and IndexError. */
  function Slot(b: Binning, n: nat, r: Record): (res: Result<nat>)
    ensures b.inc == 0 ==> res == Err(DivideByZero)
    ensures b.inc != 0 ==>
              var bin := Binner.ComputeBin(r.timestamp, b.start, b.inc).value;
              (res.Ok? <==> -(n as int) <= bin < n) &&
              (res.Err? ==> res.error == IndexOutOfRange) &&
              (res.Ok? ==> res.value < n && (res.value == bin || res.value == bin + n))
  {
    var bin :- Binner.ComputeBin(r.timestamp, b.start, b.inc);
    PyInt.PyIndex(bin, n)
  }

  /** One step of the loop: bucket `i` grows by `v`, then both watermarks
      are compared with the bucket's new value. */
  function Update(s: Series, i: nat, v: int): Series
    requires i < |s.data|
  {
    var d := s.data[i := s.data[i] + v];
    Series(d, Raise(s.hw, d[i]), Lower(s.lw, d[i]))
  }

  /** The aggregation loop over `recs` in order. It fails, as the source
      raises, as soon as a record cannot be placed. */
  function Accumulate(b: Binning, s: Series, recs: seq<Record>): (r: Result<Series>)
    decreases |recs|
    ensures r.Ok? <==> forall k :: 0 <= k < |recs| ==> Slot(b, |s.data|, recs[k]).Ok?
    ensures r.Ok? ==> |r.value.data| == |s.data|
    ensures recs == [] ==> r == Ok(s)
  {
    if recs == [] then Ok(s)
    else
      var i :- Slot(b, |s.data|, recs[0]);
      Accumulate(b, Update(s, i, Contribution(b, recs[0])), recs[1..])
  }

  predicate AllPlaced(b: Binning, n: nat, recs: seq<Record>) {
    forall k :: 0 <= k < |recs| ==> Slot(b, n, recs[k]).Ok?
  }

  /** What the records placed in bucket `i` add up to. */
  function BinSum(b: Binning, n: nat, recs: seq<Record>, i: nat): int
    decreases |recs|
  {
    if recs == [] then 0
    else (if Slot(b, n, recs[0]) == Ok(i) then Contribution(b, recs[0]) else 0)
         + BinSum(b, n, recs[1..], i)
  }

  /** What all the records add up to. */
  function TotalContribution(b: Binning, recs: seq<Record>): int
    decreases |recs|
  {
    if recs == [] then 0 else Contribution(b, recs[0]) + TotalContribution(b, recs[1..])
  }

  function Sum(xs: seq<int>): int
    decreases |xs|
  {
    if xs == [] then 0 else xs[0] + Sum(xs[1..])
  }

  /** The value bucket `slot(k)` holds right after record `k` is added. */
  function Running(b: Binning, data: seq<int>, recs: seq<Record>, k: nat): int
    requires AllPlaced(b, |data|, recs) && k < |recs|
  {
    var i := Slot(b, |data|, recs[k]).value;
    data[i] + BinSum(b, |data|, recs[..k + 1], i)
  }

  /** Every value written into a bucket, in the order of writing. */
  function Trace(b: Binning, data: seq<int>, recs: seq<Record>): (t: seq<int>)
    requires AllPlaced(b, |data|, recs)
  {
    seq(|recs|, k requires 0 <= k < |recs| => Running(b, data, recs, k))
  }

  // ---------------------------------------------------------------------
  // Bucket contents

  /** After the loop each bucket holds its prior value plus the sum of the
      records placed in it. */
  lemma {:induction false} AccumulateSums(b: Binning, s: Series, recs: seq<Record>)
    requires Accumulate(b, s, recs).Ok?
    ensures forall i :: 0 <= i < |s.data| ==>
              Accumulate(b, s, recs).value.data[i] == s.data[i] + BinSum(b, |s.data|, recs, i)
    decreases |recs|
  {
    if recs != [] {
      var j := Slot(b, |s.data|, recs[0]).value;
      var s1 := Update(s, j, Contribution(b, recs[0]));
      assert Accumulate(b, s, recs) == Accumulate(b, s1, recs[1..]);
      AccumulateSums(b, s1, recs[1..]);
    }
  }

  lemma {:induction false} BinSumNoHits(b: Binning, n: nat, recs: seq<Record>, i: nat)
    requires forall k :: 0 <= k < |recs| ==> Slot(b, n, recs[k]) != Ok(i)
    ensures BinSum(b, n, recs, i) == 0
    decreases |recs|
  {
    if recs != [] {
      BinSumNoHits(b, n, recs[1..], i);
    }
  }

  /** A bucket no record is placed in keeps its prior value. */
  lemma AccumulateUnhitUnchanged(b: Binning, s: Series, recs: seq<Record>, i: nat)
    requires Accumulate(b, s, recs).Ok? && i < |s.data|
    requires forall k :: 0 <= k < |recs| ==> Slot(b, |s.data|, recs[k]) != Ok(i)
    ensures Accumulate(b, s, recs).value.data[i] == s.data[i]
  {
    AccumulateSums(b, s, recs);
    BinSumNoHits(b, |s.data|, recs, i);
  }

  lemma {:induction false} SumUpdate(xs: seq<int>, i: nat, v: int)
    requires i < |xs|
    ensures Sum(xs[i := xs[i] + v]) == Sum(xs) + v
    decreases |xs|
  {
    if i > 0 {
      assert xs[i := xs[i] + v][1..] == xs[1..][i - 1 := xs[i] + v];
      SumUpdate(xs[1..], i - 1, v);
    } else {
      assert xs[i := xs[i] + v][1..] == xs[1..];
    }
  }

  /** The array total grows by exactly what the records contribute. */
  lemma {:induction false} AccumulateTotal(b: Binning, s: Series, recs: seq<Record>)
    requires Accumulate(b, s, recs).Ok?
    ensures Sum(Accumulate(b, s, recs).value.data) == Sum(s.data) + TotalContribution(b, recs)
    decreases |recs|
  {
    if recs != [] {
      var j := Slot(b, |s.data|, recs[0]).value;
      var c := Contribution(b, recs[0]);
      var s1 := Update(s, j, c);
      SumUpdate(s.data, j, c);
      AccumulateTotal(b, s1, recs[1..]);
    }
  }

  /** Counting: the array total grows by exactly the number of records. */
  lemma {:induction false} CountingAddsRecordCount(b: Binning, s: Series, recs: seq<Record>)
    requires b.measure == CountRecords && Accumulate(b, s, recs).Ok?
    ensures Sum(Accumulate(b, s, recs).value.data) == Sum(s.data) + |recs|
  {
    AccumulateTotal(b, s, recs);
    CountContribution(b, recs);
  }

  lemma {:induction false} CountContribution(b: Binning, recs: seq<Record>)
    requires b.measure == CountRecords
    ensures TotalContribution(b, recs) == |recs|
    decreases |recs|
  {
    if recs != [] {
      CountContribution(b, recs[1..]);
    }
  }

  // ---------------------------------------------------------------------
  // Watermarks

  /** Writing record 0 shifts the rest of the trace onto the updated array. */
  lemma RunningShift(b: Binning, data: seq<int>, recs: seq<Record>, k: nat)
    requires AllPlaced(b, |data|, recs) && k + 1 < |recs|
    ensures var j := Slot(b, |data|, recs[0]).value;
            var d1 := data[j := data[j] + Contribution(b, recs[0])];
            AllPlaced(b, |d1|, recs[1..]) &&
            Running(b, data, recs, k + 1) == Running(b, d1, recs[1..], k)
  {
    var n := |data|;
    var j := Slot(b, n, recs[0]).value;
    var c := Contribution(b, recs[0]);
    var rest := recs[1..];
    var jk := Slot(b, n, rest[k]).value;
    assert recs[k + 1] == rest[k];
    assert recs[..k + 2][1..] == rest[..k + 1];
    assert BinSum(b, n, recs[..k + 2], jk)
        == (if j == jk then c else 0) + BinSum(b, n, rest[..k + 1], jk);
  }

  lemma TraceShift(b: Binning, s: Series, recs: seq<Record>)
    requires AllPlaced(b, |s.data|, recs) && recs != []
    ensures var j := Slot(b, |s.data|, recs[0]).value;
            var s1 := Update(s, j, Contribution(b, recs[0]));
            AllPlaced(b, |s1.data|, recs[1..]) &&
            Trace(b, s.data, recs)[0] == s1.data[j] &&
            Trace(b, s.data, recs)[1..] == Trace(b, s1.data, recs[1..])
  {
    var j := Slot(b, |s.data|, recs[0]).value;
    var s1 := Update(s, j, Contribution(b, recs[0]));
    var rest := recs[1..];
    assert AllPlaced(b, |s1.data|, rest);
    var t := Trace(b, s.data, recs);
    var t1 := Trace(b, s1.data, rest);
    assert recs[..1] == [recs[0]];
    assert BinSum(b, |s.data|, [recs[0]], j) == Contribution(b, recs[0]);
    assert t[0] == s1.data[j];
    forall k | 0 <= k < |rest|
      ensures t[k + 1] == t1[k]
    {
      RunningShift(b, s.data, recs, k);
    }
    assert t[1..] == t1;
  }

  /** The watermarks are the maximum and minimum of the starting
      watermarks and every value ever written into a bucket, intermediate
      values of repeatedly hit buckets included. */
  lemma {:induction false} AccumulateWatermarks(b: Binning, s: Series, recs: seq<Record>)
    requires Accumulate(b, s, recs).Ok?
    ensures AllPlaced(b, |s.data|, recs)
    ensures Accumulate(b, s, recs).value.hw == RaiseAll(s.hw, Trace(b, s.data, recs))
    ensures Accumulate(b, s, recs).value.lw == LowerAll(s.lw, Trace(b, s.data, recs))
    decreases |recs|
  {
    if recs != [] {
      var j := Slot(b, |s.data|, recs[0]).value;
      var s1 := Update(s, j, Contribution(b, recs[0]));
      TraceShift(b, s, recs);
      AccumulateWatermarks(b, s1, recs[1..]);
    }
  }

  /** Every bucket some record was placed in ends between the watermarks. */
  lemma {:induction false} HitBucketWithinWatermarks(b: Binning, s: Series, recs: seq<Record>, i: nat)
    requires Accumulate(b, s, recs).Ok? && i < |s.data|
    requires (s.lw <= s.data[i] <= s.hw) ||
             exists k :: 0 <= k < |recs| && Slot(b, |s.data|, recs[k]) == Ok(i)
    ensures var s' := Accumulate(b, s, recs).value; s'.lw <= s'.data[i] <= s'.hw
    decreases |recs|
  {
    if recs == [] {
    } else {
      var j := Slot(b, |s.data|, recs[0]).value;
      var s1 := Update(s, j, Contribution(b, recs[0]));
      var rest := recs[1..];
      if !(s1.lw <= s1.data[i] <= s1.hw) {
        var k :| 0 <= k < |recs| && Slot(b, |s.data|, recs[k]) == Ok(i);
        assert k != 0;
        assert rest[k - 1] == recs[k];
      }
      HitBucketWithinWatermarks(b, s1, rest, i);
    }
  }

  // ---------------------------------------------------------------------
  // Placement

  /** With the arrays sized by the enumerated range, every record timed
      within `[start, end]` lands in bucket `compute_bin`, unwrapped. */
  lemma InRangePlacement(b: Binning, end: int, r: Record)
    requires b.inc > 0 && b.start <= r.timestamp <= end
    ensures var n := |DateRange.DatetimeRange(b.start, end, b.inc)|;
            Slot(b, n, r) == Ok(Binner.ComputeBin(r.timestamp, b.start, b.inc).value)
  {
    Binner.BinInRange(r.timestamp, b.start, end, b.inc);
  }

  /** Records timed within `[start, end]` never make the aggregation fail. */
  lemma InRangeNeverFails(b: Binning, end: int, s: Series, recs: seq<Record>)
    requires b.inc > 0
    requires |s.data| == |DateRange.DatetimeRange(b.start, end, b.inc)|
    requires forall k :: 0 <= k < |recs| ==> b.start <= recs[k].timestamp <= end
    ensures Accumulate(b, s, recs).Ok?
  {
    forall k | 0 <= k < |recs|
      ensures Slot(b, |s.data|, recs[k]).Ok?
    {
      InRangePlacement(b, end, recs[k]);
    }
  }

  /** A record timed less than one increment before `start` bins to -1,
      which Python reads as the last bucket: it is counted there silently. */
  lemma EarlyRecordWrapsToLastBucket(b: Binning, n: nat, r: Record)
    requires b.inc > 0 && n > 0
    requires b.start - b.inc <= r.timestamp < b.start
    ensures Slot(b, n, r) == Ok(n - 1)
  {
    Binner.BinIffInterval(r.timestamp, b.start, b.inc, -1);
  }
}

=== FILE: binner.dfy ===
/** `compute_bin`: the bucket a timestamp falls into, relative to the
    enumerated boundaries. Timestamps are integer seconds since the epoch. */
module Binner {
  import opened Results
  import PyInt
  import DateRange

  /** `compute_bin`: the offset of the timestamp from the start of the range,
      divided by the bucket width and rounded toward negative infinity.
      `incSeconds` is the increment's whole seconds, `TimeDelta.TimedeltaToSeconds`
      of the source's `timedelta`. No bounds are checked here: the index may
      lie before the first bucket or past the last one. A zero width raises. */
  function ComputeBin(ts: int, start: int, incSeconds: int): (r: Result<int>)
    ensures r.Err? <==> incSeconds == 0
    ensures r.Err? ==> r.error == DivideByZero
    ensures incSeconds > 0 && r.Ok? ==>
              start + r.value * incSeconds <= ts < start + (r.value + 1) * incSeconds
    ensures incSeconds < 0 && r.Ok? ==>
              start + (r.value + 1) * incSeconds < ts <= start + r.value * incSeconds
  {
    if incSeconds == 0 then Err(DivideByZero)
    else Ok(PyInt.FloorDiv(ts - start, incSeconds))
  }

  /** A timestamp lands in bucket `k` exactly when it lies in the half-open
      interval `[start + k*inc, start + (k+1)*inc)`. */
  lemma BinIffInterval(ts: int, start: int, inc: int, k: int)
    requires inc > 0
    ensures ComputeBin(ts, start, inc) == Ok(k) <==> start + k * inc <= ts < start + (k + 1) * inc
  {
    var q := ComputeBin(ts, start, inc).value;
    PyInt.MulCancelLess(k, q + 1, inc);
    PyInt.MulCancelLess(q, k + 1, inc);
  }

  /** Bucket boundaries bin back to their own position: binning inverts
      enumeration. */
  lemma BinOfBoundary(start: int, end: int, inc: int, k: int)
    requires inc > 0
    requires 0 <= k < |DateRange.DatetimeRange(start, end, inc)|
    ensures ComputeBin(DateRange.DatetimeRange(start, end, inc)[k], start, inc) == Ok(k)
  {
    var t := DateRange.DatetimeRange(start, end, inc)[k];
    DateRange.RangeClosedForm(start, end, inc);
    assert t == start + k * inc;
    assert (k + 1) * inc == k * inc + inc;
    BinIffInterval(t, start, inc, k);
  }

  /** Every timestamp in `[start, end]` bins to a valid index of the arrays
      sized by the enumerated range. */
  lemma BinInRange(ts: int, start: int, end: int, inc: int)
    requires inc > 0 && start <= ts <= end
    ensures ComputeBin(ts, start, inc).Ok?
    ensures 0 <= ComputeBin(ts, start, inc).value < |DateRange.DatetimeRange(start, end, inc)|
  {
    var q := ComputeBin(ts, start, inc).value;
    var n := |DateRange.DatetimeRange(start, end, inc)|;
    DateRange.RangeClosedForm(start, end, inc);
    assert start + n * inc > end;
    PyInt.MulCancelLess(0, q + 1, inc);
    PyInt.MulCancelLess(q, n, inc);
  }
}

=== FILE: chart_properties.dfy ===
/** End-to-end properties of the chart builders. */
module ChartProperties {
  import opened Results
  import opened Watermarks
  import opened Aggregator
  import opened Labels
  import opened Charts
  import DateRange
  import Headroom

  lemma {:induction false} SumZeros(n: nat)
    ensures Sum(NewSeries(n).data) == 0
    decreases n
  {
    if n > 0 {
      assert NewSeries(n).data[1..] == NewSeries(n - 1).data;
      SumZeros(n - 1);
    }
  }

  /** Proof step: unfolds `GenericStats` down to its two passes. */
  lemma GenericStatsPasses(addRecs: seq<Record>, subRecs: seq<Record>, measure: Measure,
                           start: int, end: int, inc: int, chartWidth: int)
    requires inc > 0
    ensures var r := GenericStats(addRecs, subRecs, measure, start, end, inc, chartWidth);
            var p := StatsPasses(Binning(start, inc, measure),
                                 |DateRange.DatetimeRange(start, end, inc)|, addRecs, subRecs);
            r.Ok? ==>
            var st := r.value;
            p.Ok? && st.adds == p.value.adds.data && st.subs == p.value.subs.data &&
            (subRecs != [] ==> st.peak == RaiseAll(-MaxInt, st.totals) &&
                               st.trough == LowerAll(MaxInt, st.totals)) &&
            (subRecs == [] ==> st.peak == p.value.adds.hw && st.trough == p.value.adds.lw)
  {
  }

  /** Proof step: unfolds `GenericStats` down to its label decimation. */
  lemma GenericStatsLabelStages(addRecs: seq<Record>, subRecs: seq<Record>, measure: Measure,
                           start: int, end: int, inc: int, chartWidth: int)
    requires inc > 0
    ensures var r := GenericStats(addRecs, subRecs, measure, start, end, inc, chartWidth);
            var dates := DateRange.DatetimeRange(start, end, inc);
            r.Ok? ==>
            var st := r.value;
            var d := ProcessLabels(DateLabels(start, end, dates)[0 := Blank], chartWidth);
            d.Ok? && st.labels == d.value.labels &&
            st.skip == (if d.value.skip == 0 then 1 else d.value.skip)
  {
  }

  /** Proof step: unfolds `MultilineChart` down to its series and merge. */
  lemma MultilineStages(raws: seq<seq<Record>>, start: int, end: int, inc: int, chartWidth: int)
    requires inc > 0
    ensures var r := MultilineChart(raws, start, end, inc, chartWidth);
            var n := |DateRange.DatetimeRange(start, end, inc)|;
            r.Ok? ==>
            var m := r.value;
            BuildAll(Binning(start, inc, SumValues), n, raws) == Ok(m.series) &&
            m.peak == MergeWatermarks(m.series).hw
  {
  }

  /** The unbuffered watermarks of `generic_stats`: without subtraction they
      are the extremes of every value the add pass wrote, intermediate ones
      included; with subtraction they are the extremes of the totals. */
  lemma GenericStatsWatermarks(addRecs: seq<Record>, subRecs: seq<Record>, measure: Measure,
                               start: int, end: int, inc: int, chartWidth: int)
    requires inc > 0
    ensures var r := GenericStats(addRecs, subRecs, measure, start, end, inc, chartWidth);
            var b := Binning(start, inc, measure);
            var n := |DateRange.DatetimeRange(start, end, inc)|;
            r.Ok? ==>
              (subRecs == [] ==>
                 AllPlaced(b, n, addRecs) &&
                 r.value.peak == RaiseAll(-MaxInt, Trace(b, NewSeries(n).data, addRecs)) &&
                 r.value.trough == LowerAll(MaxInt, Trace(b, NewSeries(n).data, addRecs))) &&
              (subRecs != [] ==>
                 r.value.peak == RaiseAll(-MaxInt, r.value.totals) &&
                 r.value.trough == LowerAll(MaxInt, r.value.totals))
  {
    if GenericStats(addRecs, subRecs, measure, start, end, inc, chartWidth).Ok? {
      var b := Binning(start, inc, measure);
      var n := |DateRange.DatetimeRange(start, end, inc)|;
      GenericStatsPasses(addRecs, subRecs, measure, start, end, inc, chartWidth);
      if subRecs == [] {
        AccumulateWatermarks(b, NewSeries(n), addRecs);
      }
    }
  }

  /** The labels `generic_stats` returns: the first is blank, and every
      other date keeps its label exactly when its index is a multiple of
      the (non-zero) stride. */
  lemma GenericStatsLabels(addRecs: seq<Record>, subRecs: seq<Record>, measure: Measure,
                           start: int, end: int, inc: int, chartWidth: int)
    requires inc > 0
    ensures var r := GenericStats(addRecs, subRecs, measure, start, end, inc, chartWidth);
            var dates := DateRange.DatetimeRange(start, end, inc);
            r.Ok? ==>
              r.value.skip != 0 && |r.value.labels| == |dates| &&
              forall i :: 0 <= i < |dates| ==>
                r.value.labels[i] ==
                  (if i == 0 || i % r.value.skip != 0 then Blank else DateLabel(start, end, dates[i]))
  {
    var r := GenericStats(addRecs, subRecs, measure, start, end, inc, chartWidth);
    if r.Ok? {
      GenericStatsLabelStages(addRecs, subRecs, measure, start, end, inc, chartWidth);
      var dates := DateRange.DatetimeRange(start, end, inc);
      var full := DateLabels(start, end, dates);
      var blanked := full[0 := Blank];
      var d := ProcessLabels(blanked, chartWidth).value;
      forall i | 0 <= i < |dates|
        ensures r.value.labels[i] ==
                  (if i == 0 || i % r.value.skip != 0 then Blank else DateLabel(start, end, dates[i]))
      {
        assert i > 0 ==> blanked[i] == full[i] == DateLabel(start, end, dates[i]);
      }
    }
  }

  /** Each series of `multiline_chart` holds, in every bucket, the sum of
      the values its records placed there. */
  lemma MultilineSeriesSums(raws: seq<seq<Record>>, start: int, end: int, inc: int, chartWidth: int)
    requires inc > 0
    ensures var r := MultilineChart(raws, start, end, inc, chartWidth);
            var b := Binning(start, inc, SumValues);
            var n := |DateRange.DatetimeRange(start, end, inc)|;
            r.Ok? ==>
              forall k, i :: 0 <= k < |raws| && 0 <= i < n ==>
                r.value.series[k].data[i] == BinSum(b, n, raws[k], i)
  {
    var r := MultilineChart(raws, start, end, inc, chartWidth);
    if r.Ok? {
      var b := Binning(start, inc, SumValues);
      var n := |DateRange.DatetimeRange(start, end, inc)|;
      MultilineStages(raws, start, end, inc, chartWidth);
      forall k | 0 <= k < |raws|
        ensures forall i :: 0 <= i < n ==> r.value.series[k].data[i] == BinSum(b, n, raws[k], i)
      {
        AccumulateSums(b, NewSeries(n), raws[k]);
      }
    }
  }

  /** Each add bucket holds what the add records placed in it contribute,
      and likewise for the subtract buckets when there are subtract records. */
  lemma GenericStatsBuckets(addRecs: seq<Record>, subRecs: seq<Record>, measure: Measure,
                            start: int, end: int, inc: int, chartWidth: int)
    requires inc > 0
    ensures var r := GenericStats(addRecs, subRecs, measure, start, end, inc, chartWidth);
            var b := Binning(start, inc, measure);
            var n := |DateRange.DatetimeRange(start, end, inc)|;
            r.Ok? ==>
            var st := r.value;
            (forall i :: 0 <= i < n ==> st.adds[i] == BinSum(b, n, addRecs, i)) &&
            (subRecs != [] ==> forall i :: 0 <= i < n ==> st.subs[i] == BinSum(b, n, subRecs, i))
  {
    var b := Binning(start, inc, measure);
    var n := |DateRange.DatetimeRange(start, end, inc)|;
    GenericStatsPasses(addRecs, subRecs, measure, start, end, inc, chartWidth);
    if GenericStats(addRecs, subRecs, measure, start, end, inc, chartWidth).Ok? {
      PassBuckets(b, n, addRecs, subRecs);
    }
  }

  lemma PassBuckets(b: Binning, n: nat, addRecs: seq<Record>, subRecs: seq<Record>)
    requires StatsPasses(b, n, addRecs, subRecs).Ok?
    ensures var p := StatsPasses(b, n, addRecs, subRecs).value;
            (forall i :: 0 <= i < n ==> p.adds.data[i] == BinSum(b, n, addRecs, i)) &&
            (subRecs != [] ==> forall i :: 0 <= i < n ==> p.subs.data[i] == BinSum(b, n, subRecs, i))
  {
    AccumulateSums(b, NewSeries(n), addRecs);
    if subRecs != [] {
      AccumulateSums(b, NewSeries(n), subRecs);
    }
  }

  /** Counting without a value field: the add buckets sum to the number of
      add records. */
  lemma GenericStatsCounts(addRecs: seq<Record>, subRecs: seq<Record>,
                           start: int, end: int, inc: int, chartWidth: int)
    requires inc > 0
    ensures var r := GenericStats(addRecs, subRecs, CountRecords, start, end, inc, chartWidth);
            r.Ok? ==> Sum(r.value.adds) == |addRecs|
  {
    var b := Binning(start, inc, CountRecords);
    var n := |DateRange.DatetimeRange(start, end, inc)|;
    GenericStatsPasses(addRecs, subRecs, CountRecords, start, end, inc, chartWidth);
    if GenericStats(addRecs, subRecs, CountRecords, start, end, inc, chartWidth).Ok? {
      SumZeros(n);
      CountingAddsRecordCount(b, NewSeries(n), addRecs);
    }
  }

  /** Without subtraction the unbuffered watermarks enclose the final value
      of every bucket an add record was placed in. */
  lemma GenericStatsHitBuckets(addRecs: seq<Record>, measure: Measure,
                               start: int, end: int, inc: int, chartWidth: int, k: nat)
    requires inc > 0 && k < |addRecs|
    ensures var r := GenericStats(addRecs, [], measure, start, end, inc, chartWidth);
            var n := |DateRange.DatetimeRange(start, end, inc)|;
            var i := Slot(Binning(start, inc, measure), n, addRecs[k]);
            r.Ok? ==> i.Ok? && r.value.trough <= r.value.totals[i.value] <= r.value.peak
  {
    var b := Binning(start, inc, measure);
    var n := |DateRange.DatetimeRange(start, end, inc)|;
    if GenericStats(addRecs, [], measure, start, end, inc, chartWidth).Ok? {
      GenericStatsPasses(addRecs, [], measure, start, end, inc, chartWidth);
      var i := Slot(b, n, addRecs[k]).value;
      HitBucketWithinWatermarks(b, NewSeries(n), addRecs, i);
    }
  }

  /** With no records at all the unbuffered watermarks stay at the sentinels. */
  lemma GenericStatsNoRecords(measure: Measure, start: int, end: int, inc: int, chartWidth: int)
    requires inc > 0
    ensures var r := GenericStats([], [], measure, start, end, inc, chartWidth);
            r.Ok? ==> r.value.peak == -MaxInt && r.value.trough == MaxInt
  {
  }

  /** Records timed within `[start, end]` can only make `generic_stats`
      fail by a division by zero, never by an index error. */
  lemma GenericStatsInRange(addRecs: seq<Record>, subRecs: seq<Record>, measure: Measure,
                            start: int, end: int, inc: int, chartWidth: int)
    requires inc > 0 && start < end
    requires forall k :: 0 <= k < |addRecs| ==> start <= addRecs[k].timestamp <= end
    requires forall k :: 0 <= k < |subRecs| ==> start <= subRecs[k].timestamp <= end
    ensures var r := GenericStats(addRecs, subRecs, measure, start, end, inc, chartWidth);
            r.Err? ==> r.error == DivideByZero
  {
    var b := Binning(start, inc, measure);
    var n := |DateRange.DatetimeRange(start, end, inc)|;
    InRangeNeverFails(b, end, NewSeries(n), addRecs);
    InRangeNeverFails(b, end, NewSeries(n), subRecs);
  }

  lemma DailyRange()
    ensures DateRange.DatetimeRange(0, 172800, 86400) == [0, 86400, 172800]
  {
    assert DateRange.DatetimeRange(259200, 172800, 86400) == [];
    assert DateRange.DatetimeRange(172800, 172800, 86400) == [172800];
    assert DateRange.DatetimeRange(86400, 172800, 86400) == [86400, 172800];
  }

  lemma DailyAdds()
    ensures Accumulate(Binning(0, 86400, SumValues), NewSeries(3),
                       [Record(43200, 5), Record(108000, 3), Record(151200, 7)])
            == Ok(Series([5, 10, 0], 10, 3))
  {
    var b := Binning(0, 86400, SumValues);
    var recs := [Record(43200, 5), Record(108000, 3), Record(151200, 7)];
    assert NewSeries(3) == Series([0, 0, 0], -MaxInt, MaxInt);
    assert Slot(b, 3, recs[0]) == Ok(0);
    assert Slot(b, 3, recs[1]) == Ok(1);
    assert Slot(b, 3, recs[2]) == Ok(1);
    var s1 := Series([5, 0, 0], 5, 5);
    var s2 := Series([5, 3, 0], 5, 3);
    var s3 := Series([5, 10, 0], 10, 3);
    assert Update(NewSeries(3), 0, 5) == s1;
    assert Update(s1, 1, 3) == s2;
    assert Update(s2, 1, 7) == s3;
    assert Accumulate(b, s3, recs[3..]) == Ok(s3);
    assert Accumulate(b, s2, recs[2..]) == Ok(s3);
    assert Accumulate(b, s1, recs[1..]) == Ok(s3);
  }

  lemma DailyLabels()
    ensures var labels := [Blank, DayAndMonth(86400), DayAndMonth(172800)];
            DateLabels(0, 172800, [0, 86400, 172800])[0 := Blank] == labels &&
            ProcessLabels(labels, 500) == Ok(Decimated(labels, 0))
  {
  }

  lemma DailySubs()
    ensures Accumulate(Binning(0, 86400, SumValues), NewSeries(3), [Record(86500, 4)])
            == Ok(Series([0, 4, 0], 4, 4))
  {
    var b := Binning(0, 86400, SumValues);
    assert NewSeries(3) == Series([0, 0, 0], -MaxInt, MaxInt);
    assert Slot(b, 3, Record(86500, 4)) == Ok(1);
    assert Update(NewSeries(3), 1, 4) == Series([0, 4, 0], 4, 4);
  }

  lemma DailyCombine()
    ensures Combine([5, 10, 0], [0, 4, 0]) == Combined([5, 6, 0], 6, 0)
  {
    assert Combine([5, 10, 0], [0, 4, 0]).totals == [5, 6, 0];
    assert RaiseAll(-MaxInt, [5, 6, 0]) == 6;
    assert LowerAll(MaxInt, [5, 6, 0]) == 0;
  }

  lemma DailySubtractPasses()
    ensures StatsPasses(Binning(0, 86400, SumValues), 3,
                        [Record(43200, 5), Record(108000, 3), Record(151200, 7)],
                        [Record(86500, 4)])
            == Ok(Passes(Series([5, 10, 0], 10, 3), Series([0, 4, 0], 4, 4)))
  {
    DailyAdds();
    DailySubs();
  }

  lemma DailySubtractScale()
    ensures var labels := [Blank, DayAndMonth(86400), DayAndMonth(172800)];
            ScaleChart(labels, 6, 500) == Ok(Scale(labels, 20, 1))
  {
    DailyLabels();
    assert Headroom.BufferedHighWater(6) == 20;
  }

  /** Days 0 to 2 by one day, records (day 0 12:00, 5), (day 1 06:00, 3),
      (day 1 18:00, 7): totals [5, 10, 0], high watermark 10 buffered to 30.
      The low watermark is 3, the intermediate value of bucket 1. */
  lemma DailyScenario()
    ensures GenericStats([Record(43200, 5), Record(108000, 3), Record(151200, 7)], [],
                         SumValues, 0, 172800, 86400, 500)
            == Ok(Stats([Blank, DayAndMonth(86400), DayAndMonth(172800)],
                        [5, 10, 0], [5, 10, 0], [0, 0, 0], 10, 3, 30, 1))
  {
    DailyRange();
    DailyAdds();
    DailyLabels();
    assert NewSeries(3) == Series([0, 0, 0], -MaxInt, MaxInt);
    assert Headroom.BufferedHighWater(10) == 30;
  }

  /** The same adds with one subtract record of 4 on day 1: totals
      [5, 6, 0] with high watermark 6, buffered to 20; a bucket whose
      subtractions exceed its additions would go negative. */
  lemma DailyScenarioWithSubtraction()
    ensures GenericStats([Record(43200, 5), Record(108000, 3), Record(151200, 7)],
                         [Record(86500, 4)], SumValues, 0, 172800, 86400, 500)
            == Ok(Stats([Blank, DayAndMonth(86400), DayAndMonth(172800)],
                        [5, 6, 0], [5, 10, 0], [0, 4, 0], 6, 0, 20, 1))
  {
    DailyRange();
    DailySubtractPasses();
    DailyCombine();
    DailyLabels();
    DailySubtractScale();
  }

  lemma TwoSeriesPasses()
    ensures var b := Binning(0, 86400, SumValues);
            Accumulate(b, NewSeries(3), [Record(43200, 5)]) == Ok(Series([5, 0, 0], 5, 5)) &&
            Accumulate(b, NewSeries(3), [Record(100000, 12), Record(150000, -2)])
            == Ok(Series([0, 10, 0], 12, 10))
  {
    var b := Binning(0, 86400, SumValues);
    assert NewSeries(3) == Series([0, 0, 0], -MaxInt, MaxInt);
    assert Slot(b, 3, Record(43200, 5)) == Ok(0);
    assert Slot(b, 3, Record(100000, 12)) == Ok(1);
    assert Slot(b, 3, Record(150000, -2)) == Ok(1);
    var c1 := Series([0, 12, 0], 12, 12);
    var c2 := Series([0, 10, 0], 12, 10);
    assert Update(NewSeries(3), 0, 5) == Series([5, 0, 0], 5, 5);
    assert Update(NewSeries(3), 1, 12) == c1;
    assert Update(c1, 1, -2) == c2;
    assert Accumulate(b, c1, [Record(150000, -2)]) == Ok(c2);
  }

  lemma TwoSeriesBuilt()
    ensures BuildAll(Binning(0, 86400, SumValues), 3,
                     [[Record(43200, 5)], [Record(100000, 12), Record(150000, -2)]])
            == Ok([Series([5, 0, 0], 5, 5), Series([0, 10, 0], 12, 10)])
  {
    var b := Binning(0, 86400, SumValues);
    var raws := [[Record(43200, 5)], [Record(100000, 12), Record(150000, -2)]];
    TwoSeriesPasses();
    var tail := raws[1..];
    assert tail[0] == raws[1] && tail[1..] == [];
    var c2 := Series([0, 10, 0], 12, 10);
    assert Accumulate(b, NewSeries(3), tail[0]) == Ok(c2);
    assert BuildAll(b, 3, tail[1..]) == Ok([]);
    assert [c2] + [] == [c2];
    assert BuildAll(b, 3, tail) == Ok([c2]);
    var a := Series([5, 0, 0], 5, 5);
    assert Accumulate(b, NewSeries(3), raws[0]) == Ok(a);
    assert [a] + [c2] == [a, c2];
  }

  lemma TwoSeriesScale()
    ensures var labels := [DayAndMonth(0), DayAndMonth(86400), DayAndMonth(172800)];
            MergeWatermarks([Series([5, 0, 0], 5, 5), Series([0, 10, 0], 12, 10)]) == Marks(12, 5) &&
            DateLabels(0, 172800, [0, 86400, 172800]) == labels &&
            ScaleChart(labels, 12, 500) == Ok(Scale(labels, 30, 1))
  {
    var labels := [DayAndMonth(0), DayAndMonth(86400), DayAndMonth(172800)];
    var series := [Series([5, 0, 0], 5, 5), Series([0, 10, 0], 12, 10)];
    assert series[..1][..0] == [];
    assert MergeWatermarks(series[..1]) == Marks(5, 5);
    assert ProcessLabels(labels, 500) == Ok(Decimated(labels, 0));
    assert Headroom.BufferedHighWater(12) == 30;
  }

  /** Two series over days 0 to 2: one record of 5 on day 0, and 12 then
      -2 on day 1. The second series' high watermark keeps the intermediate
      12 although its bucket ends at 10; the chart peak is 12, buffered to
      30, and the first label stays drawn. */
  lemma TwoSeriesScenario()
    ensures MultilineChart([[Record(43200, 5)], [Record(100000, 12), Record(150000, -2)]],
                           0, 172800, 86400, 500)
            == Ok(Multi([DayAndMonth(0), DayAndMonth(86400), DayAndMonth(172800)],
                        [Series([5, 0, 0], 5, 5), Series([0, 10, 0], 12, 10)], 12, 30, 1))
  {
    DailyRange();
    TwoSeriesBuilt();
    TwoSeriesScale();
  }

  /** Proof step: unfolds `MultilineChart` down to its label decimation. */
  lemma MultilineLabelStage(raws: seq<seq<Record>>, start: int, end: int, inc: int, chartWidth: int)
    requires inc > 0
    ensures var r := MultilineChart(raws, start, end, inc, chartWidth);
            var dates := DateRange.DatetimeRange(start, end, inc);
            r.Ok? ==>
              var d := ProcessLabels(DateLabels(start, end, dates), chartWidth);
              d.Ok? && r.value.labels == d.value.labels &&
              r.value.skip == (if d.value.skip == 0 then 1 else d.value.skip)
  {
  }

  /** The labels `multiline_chart` returns: none is blanked up front, so
      every date keeps its own label exactly when its index is a multiple of
      the (non-zero) stride, label 0 included. */
  lemma MultilineLabels(raws: seq<seq<Record>>, start: int, end: int, inc: int, chartWidth: int)
    requires inc > 0
    ensures var r := MultilineChart(raws, start, end, inc, chartWidth);
            var dates := DateRange.DatetimeRange(start, end, inc);
            r.Ok? ==>
              r.value.skip != 0 && |r.value.labels| == |dates| &&
              forall i :: 0 <= i < |dates| ==>
                r.value.labels[i] ==
                  (if i % r.value.skip != 0 then Blank else DateLabel(start, end, dates[i]))
  {
    var r := MultilineChart(raws, start, end, inc, chartWidth);
    if r.Ok? {
      MultilineLabelStage(raws, start, end, inc, chartWidth);
      var dates := DateRange.DatetimeRange(start, end, inc);
      var full := DateLabels(start, end, dates);
      var d := ProcessLabels(full, chartWidth).value;
      forall i | 0 <= i < |dates|
        ensures r.value.labels[i] ==
                  (if i % r.value.skip != 0 then Blank else DateLabel(start, end, dates[i]))
      {
        assert full[i] == DateLabel(start, end, dates[i]);
      }
    }
  }

  // ---------------------------------------------------------------------
  // When the builders succeed

  lemma {:induction false} BinSumNonNegative(b: Binning, n: nat, recs: seq<Record>, i: nat)
    requires forall k :: 0 <= k < |recs| ==> Contribution(b, recs[k]) >= 0
    ensures BinSum(b, n, recs, i) >= 0
    decreases |recs|
  {
    if recs != [] {
      BinSumNonNegative(b, n, recs[1..], i);
    }
  }

  /** Aggregating contributions that are never negative into fresh buckets
      leaves the high watermark at its sentinel or at a non-negative value. */
  lemma FreshPeakNonNegative(b: Binning, n: nat, recs: seq<Record>)
    requires Accumulate(b, NewSeries(n), recs).Ok?
    requires forall k :: 0 <= k < |recs| ==> Contribution(b, recs[k]) >= 0
    ensures var hw := Accumulate(b, NewSeries(n), recs).value.hw;
            hw == -MaxInt || hw >= 0
  {
    var s := NewSeries(n);
    AccumulateWatermarks(b, s, recs);
    var t := Trace(b, s.data, recs);
    forall k | 0 <= k < |t|
      ensures t[k] >= 0
    {
      var prefix := recs[..k + 1];
      assert forall j :: 0 <= j < |prefix| ==> prefix[j] == recs[j];
      BinSumNonNegative(b, n, prefix, Slot(b, n, recs[k]).value);
    }
  }

  /** A range with at least one full increment has two or more boundaries. */
  lemma TwoBoundaries(start: int, end: int, inc: int)
    requires inc > 0 && start + inc <= end
    ensures |DateRange.DatetimeRange(start, end, inc)| >= 2
  {
    DateRange.RangeLength(start, end, inc);
    PyInt.NonNegDiv(end - start, inc);
  }

  /** A sentinel or non-negative peak never buffers to zero. */
  lemma BufferedNonZero(hw: int)
    requires hw == -MaxInt || hw >= 0
    ensures Headroom.BufferedHighWater(hw) != 0
  {
    Headroom.BufferedZeroIff(hw);
  }

  /** `generic_stats` succeeds on a range of at least one full increment, a
      chart of at least 100 pixels, and add records timed within the range
      whose contributions are never negative (counting always qualifies),
      with no subtract records. */
  lemma GenericStatsSucceeds(addRecs: seq<Record>, measure: Measure,
                             start: int, end: int, inc: int, chartWidth: int)
    requires inc > 0 && start + inc <= end && chartWidth >= LabelWidthGuess
    requires forall k :: 0 <= k < |addRecs| ==> start <= addRecs[k].timestamp <= end
    requires forall k :: 0 <= k < |addRecs| ==>
               Contribution(Binning(start, inc, measure), addRecs[k]) >= 0
    ensures GenericStats(addRecs, [], measure, start, end, inc, chartWidth).Ok?
  {
    var b := Binning(start, inc, measure);
    var dates := DateRange.DatetimeRange(start, end, inc);
    var n := |dates|;
    TwoBoundaries(start, end, inc);
    InRangeNeverFails(b, end, NewSeries(n), addRecs);
    var adds := Accumulate(b, NewSeries(n), addRecs).value;
    FreshPeakNonNegative(b, n, addRecs);
    BufferedNonZero(adds.hw);
    var labels := DateLabels(start, end, dates)[0 := Blank];
    assert StatsPasses(b, n, addRecs, []) == Ok(Passes(adds, NewSeries(n)));
    assert ScaleChart(labels, adds.hw, chartWidth).Ok?;
  }

  /** `multiline_chart` succeeds on a range of at least one full increment, a
      chart of at least 100 pixels, and series whose records are timed
      within the range and carry non-negative values. */
  lemma MultilineChartSucceeds(raws: seq<seq<Record>>, start: int, end: int, inc: int,
                               chartWidth: int)
    requires inc > 0 && start + inc <= end && chartWidth >= LabelWidthGuess
    requires forall k, j :: 0 <= k < |raws| && 0 <= j < |raws[k]| ==>
               start <= raws[k][j].timestamp <= end && raws[k][j].value >= 0
    ensures MultilineChart(raws, start, end, inc, chartWidth).Ok?
  {
    var b := Binning(start, inc, SumValues);
    var dates := DateRange.DatetimeRange(start, end, inc);
    var n := |dates|;
    TwoBoundaries(start, end, inc);
    forall k | 0 <= k < |raws|
      ensures Accumulate(b, NewSeries(n), raws[k]).Ok?
      ensures var hw := Accumulate(b, NewSeries(n), raws[k]).value.hw; hw == -MaxInt || hw >= 0
    {
      InRangeNeverFails(b, end, NewSeries(n), raws[k]);
      FreshPeakNonNegative(b, n, raws[k]);
    }
    var series := BuildAll(b, n, raws).value;
    var marks := MergeWatermarks(series);
    BufferedNonZero(marks.hw);
    assert ScaleChart(DateLabels(start, end, dates), marks.hw, chartWidth).Ok?;
  }
}

=== FILE: charts.dfy ===
/** The two chart builders, `generic_stats` and `multiline_chart`, reduced
    to their integer computation: bucket arrays, watermarks, the buffered
    high watermark, the decimated labels and the x-grid label stride. The
    float results (normalised data, grid scales) are not modelled, but the
    ZeroDivisionErrors their divisions raise are. */
module Charts {
  import opened Results
  import opened Watermarks
  import opened Aggregator
  import opened Labels
  import DateRange
  import Headroom

  /** Totals and their watermarks, as the subtract branch computes them. */
  datatype Combined = Combined(totals: seq<int>, hw: int, lw: int)

  /** The subtract branch: each total is the bucket's adds less its subs,
      and fresh watermarks are taken over the totals. */
  function Combine(adds: seq<int>, subs: seq<int>): (r: Combined)
    requires |adds| == |subs|
    ensures |r.totals| == |adds|
    ensures forall i :: 0 <= i < |adds| ==> r.totals[i] == adds[i] - subs[i]
    ensures forall i :: 0 <= i < |adds| ==> r.lw <= r.totals[i] <= r.hw
    ensures -MaxInt <= r.hw && r.lw <= MaxInt
    ensures r.hw == -MaxInt || exists i :: 0 <= i < |adds| && r.totals[i] == r.hw
    ensures r.lw == MaxInt || exists i :: 0 <= i < |adds| && r.totals[i] == r.lw
  {
    var totals := seq(|adds|, i requires 0 <= i < |adds| => adds[i] - subs[i]);
    Combined(totals, RaiseAll(-MaxInt, totals), LowerAll(MaxInt, totals))
  }

  /** The tail both builders share: buffer the high watermark, derive the
      y-grid scale (which divides by the buffered watermark), decimate the
      labels, force the stride to be at least one, and derive the x-grid
      scale (which divides by the number of labels less one). */
  datatype Scale = Scale(labels: seq<Label>, hw: int, skip: int)

  function ScaleChart(labels: seq<Label>, peak: int, chartWidth: int): (r: Result<Scale>)
    ensures r.Err? <==>
              Headroom.BufferedHighWater(peak) == 0 || 0 <= chartWidth < LabelWidthGuess ||
              |labels| == 1
    ensures r.Err? ==> r.error == DivideByZero
    ensures r.Ok? ==> r.value.hw == Headroom.BufferedHighWater(peak) && r.value.hw % 10 == 0
    ensures r.Ok? ==> r.value.labels == ProcessLabels(labels, chartWidth).value.labels
    ensures r.Ok? ==> r.value.skip != 0 &&
                      (chartWidth >= LabelWidthGuess ==> r.value.skip >= 1)
    ensures r.Ok? ==>
              var d := ProcessLabels(labels, chartWidth).value;
              r.value.skip == (if d.skip == 0 then 1 else d.skip)
    ensures r.Ok? && chartWidth >= LabelWidthGuess ==>
              var skip := |labels| / (chartWidth / LabelWidthGuess);
              r.value.skip == (if skip == 0 then 1 else skip)
  {
    var hw := Headroom.BufferedHighWater(peak);
    if hw == 0 then Err(DivideByZero)
    else
      var decimated :- ProcessLabels(labels, chartWidth);
      var skip := if decimated.skip == 0 then 1 else decimated.skip;
      if |decimated.labels| - 1 == 0 then Err(DivideByZero)
      else Ok(Scale(decimated.labels, hw, skip))
  }

  /** The add pass and, when there are subtract records, the subtract pass
      of `generic_stats`, each into fresh buckets. */
  datatype Passes = Passes(adds: Series, subs: Series)

  function StatsPasses(b: Binning, n: nat, addRecs: seq<Record>, subRecs: seq<Record>): (r: Result<Passes>)
    ensures r.Ok? <==> AllPlaced(b, n, addRecs) && AllPlaced(b, n, subRecs)
    ensures r.Ok? ==> Accumulate(b, NewSeries(n), addRecs) == Ok(r.value.adds)
    ensures r.Ok? ==> |r.value.adds.data| == n && |r.value.subs.data| == n
    ensures r.Ok? && subRecs != [] ==> Accumulate(b, NewSeries(n), subRecs) == Ok(r.value.subs)
    ensures r.Ok? && subRecs == [] ==> r.value.subs == NewSeries(n)
  {
    var adds :- Accumulate(b, NewSeries(n), addRecs);
    var subs :- if subRecs != [] then Accumulate(b, NewSeries(n), subRecs) else Ok(NewSeries(n));
    Ok(Passes(adds, subs))
  }

  /** What `generic_stats` returns (labels, totals, adds, subs and the
      chart's `hw`), together with the unbuffered watermarks `peak` and
      `trough` and the label stride the x-grid scale divides. */
  datatype Stats = Stats(labels: seq<Label>, totals: seq<int>, adds: seq<int>,
                         subs: seq<int>, peak: int, trough: int, hw: int, skip: int)

  /** `generic_stats`. An empty subtract collection is falsy in Python and
      takes the branch without subtraction. */
  function GenericStats(addRecs: seq<Record>, subRecs: seq<Record>, measure: Measure,
                        start: int, end: int, inc: int, chartWidth: int): (r: Result<Stats>)
    requires inc > 0 || start >= end
    ensures start >= end ==> r == Err(InvalidRange)
    ensures r.Ok? ==>
              var n := |DateRange.DatetimeRange(start, end, inc)|;
              n >= 2 && |r.value.labels| == n && |r.value.totals| == n &&
              |r.value.adds| == n && |r.value.subs| == n
    ensures r.Ok? ==> r.value.labels[0] == Blank
    ensures r.Ok? ==> r.value.hw == Headroom.BufferedHighWater(r.value.peak) && r.value.hw != 0
    ensures r.Ok? && subRecs != [] ==>
              forall i :: 0 <= i < |r.value.totals| ==>
                r.value.totals[i] == r.value.adds[i] - r.value.subs[i] &&
                r.value.trough <= r.value.totals[i] <= r.value.peak
    ensures r.Ok? && subRecs == [] ==>
              r.value.totals == r.value.adds &&
              forall i :: 0 <= i < |r.value.subs| ==> r.value.subs[i] == 0
  {
    if !(start < end) then Err(InvalidRange)
    else
      var dates := DateRange.DatetimeRange(start, end, inc);
      var labels := DateLabels(start, end, dates);
      var labels := if |labels| > 0 then labels[0 := Blank] else labels;
      var p :- StatsPasses(Binning(start, inc, measure), |dates|, addRecs, subRecs);
      var combined := if subRecs != [] then Combine(p.adds.data, p.subs.data)
                      else Combined(p.adds.data, p.adds.hw, p.adds.lw);
      var sc :- ScaleChart(labels, combined.hw, chartWidth);
      Ok(Stats(sc.labels, combined.totals, p.adds.data, p.subs.data,
               combined.hw, combined.lw, sc.hw, sc.skip))
  }

  /** The series of `multiline_chart`, one per raw series, each built by
      `build_data`; the first failure aborts the list comprehension. */
  function BuildAll(b: Binning, n: nat, raws: seq<seq<Record>>): (r: Result<seq<Series>>)
    decreases |raws|
    ensures r.Ok? <==> forall k :: 0 <= k < |raws| ==> Accumulate(b, NewSeries(n), raws[k]).Ok?
    ensures r.Ok? ==> |r.value| == |raws|
    ensures r.Ok? ==> forall k :: 0 <= k < |raws| ==> Accumulate(b, NewSeries(n), raws[k]) == Ok(r.value[k])
  {
    if raws == [] then Ok([])
    else
      var first :- Accumulate(b, NewSeries(n), raws[0]);
      var rest :- BuildAll(b, n, raws[1..]);
      Ok([first] + rest)
  }

  datatype Marks = Marks(hw: int, lw: int)

  /** The chart watermarks of `multiline_chart`: the extremes of the series'
      watermarks, starting from the sentinels. */
  function MergeWatermarks(series: seq<Series>): (r: Marks)
    decreases |series|
    ensures forall k :: 0 <= k < |series| ==> r.lw <= series[k].lw && series[k].hw <= r.hw
    ensures -MaxInt <= r.hw && r.lw <= MaxInt
    ensures r.hw == -MaxInt || exists k :: 0 <= k < |series| && series[k].hw == r.hw
    ensures r.lw == MaxInt || exists k :: 0 <= k < |series| && series[k].lw == r.lw
  {
    if series == [] then Marks(-MaxInt, MaxInt)
    else
      var m := MergeWatermarks(series[..|series| - 1]);
      var last := series[|series| - 1];
      Marks(Raise(m.hw, last.hw), Lower(m.lw, last.lw))
  }

  /** What `multiline_chart` computes: the labels (index 0 is not blanked
      here), the raw series, the unbuffered and buffered chart `hw`, and the
      label stride. */
  datatype Multi = Multi(labels: seq<Label>, series: seq<Series>, peak: int, hw: int, skip: int)

  /** `multiline_chart`; every series is summed by value. */
  function MultilineChart(raws: seq<seq<Record>>, start: int, end: int, inc: int,
                          chartWidth: int): (r: Result<Multi>)
    requires inc > 0 || start >= end
    ensures start >= end ==> r == Err(InvalidRange)
    ensures r.Ok? ==>
              var n := |DateRange.DatetimeRange(start, end, inc)|;
              n >= 2 && |r.value.labels| == n && |r.value.series| == |raws| &&
              forall k :: 0 <= k < |raws| ==> |r.value.series[k].data| == n
    ensures r.Ok? ==> r.value.hw == Headroom.BufferedHighWater(r.value.peak) && r.value.hw != 0
    ensures r.Ok? ==> forall k :: 0 <= k < |raws| ==> r.value.series[k].hw <= r.value.peak
    ensures r.Ok? ==> r.value.peak == -MaxInt ||
                      exists k :: 0 <= k < |raws| && r.value.series[k].hw == r.value.peak
  {
    if !(start < end) then Err(InvalidRange)
    else
      var dates := DateRange.DatetimeRange(start, end, inc);
      var labels := DateLabels(start, end, dates);
      var series :- BuildAll(Binning(start, inc, SumValues), |dates|, raws);
      var marks := MergeWatermarks(series);
      var sc :- ScaleChart(labels, marks.hw, chartWidth);
      Ok(Multi(sc.labels, series, marks.hw, sc.hw, sc.skip))
  }
}

=== FILE: daterange.dfy ===
/** `datetimeIterator`: the bucket boundaries `start, start+inc, ...` up to
    and including the last one that does not pass `end`. Instants are
    integer seconds. */
module DateRange {
  import PyInt

  /** With `start <= end` a zero increment never ends, and a negative one
      steps down until `datetime` raises `OverflowError` at year 1; neither
      is modelled, so a caller must give a positive increment unless the
      range is empty. */
  function DatetimeRange(start: int, end: int, inc: int): (r: seq<int>)
    requires inc > 0 || start > end
    decreases if start <= end then end - start + 1 else 0
    ensures start <= end <==> |r| > 0
    ensures |r| > 0 ==> r[0] == start
    ensures forall k :: 0 <= k < |r| ==> start <= r[k] <= end
  {
    if start <= end then [start] + DatetimeRange(start + inc, end, inc) else []
  }

  /** Boundary `k` is `start + k * inc`, and one more step would pass `end`. */
  lemma {:induction false} RangeClosedForm(start: int, end: int, inc: int)
    requires inc > 0
    ensures var r := DatetimeRange(start, end, inc);
            forall k :: 0 <= k < |r| ==> r[k] == start + k * inc
    ensures start <= end ==> start + |DatetimeRange(start, end, inc)| * inc > end
    decreases if start <= end then end - start + 1 else 0
  {
    if start <= end {
      var r := DatetimeRange(start, end, inc);
      var rest := DatetimeRange(start + inc, end, inc);
      RangeClosedForm(start + inc, end, inc);
      assert r == [start] + rest;
      forall k | 1 <= k < |r|
        ensures r[k] == start + k * inc
      {
        assert r[k] == rest[k - 1] == start + inc + (k - 1) * inc;
      }
      assert start + |r| * inc == start + inc + |rest| * inc;
    }
  }

  /** `m` is the floor of `d / inc` when `d` lies in `[m*inc, (m+1)*inc)`. */
  lemma FloorUnique(d: int, inc: int, m: int)
    requires inc > 0 && m * inc <= d < (m + 1) * inc
    ensures m == d / inc
  {
    var q := d / inc;
    assert d == q * inc + d % inc;
    assert (q + 1) * inc == q * inc + inc;
    PyInt.MulCancelLess(m, q + 1, inc);
    PyInt.MulCancelLess(q, m + 1, inc);
  }

  /** The number of buckets is `(end - start) / inc + 1` for a non-empty range. */
  lemma RangeLength(start: int, end: int, inc: int)
    requires inc > 0 && start <= end
    ensures |DatetimeRange(start, end, inc)| == (end - start) / inc + 1
  {
    var r := DatetimeRange(start, end, inc);
    var n := |r|;
    RangeClosedForm(start, end, inc);
    assert r[n - 1] == start + (n - 1) * inc;
    FloorUnique(end - start, inc, n - 1);
  }

  /** The boundaries strictly increase. */
  lemma RangeStrictlyIncreasing(start: int, end: int, inc: int, i: int, j: int)
    requires inc > 0
    requires 0 <= i < j < |DatetimeRange(start, end, inc)|
    ensures DatetimeRange(start, end, inc)[i] < DatetimeRange(start, end, inc)[j]
  {
    var r := DatetimeRange(start, end, inc);
    RangeClosedForm(start, end, inc);
    assert r[i] == start + i * inc && r[j] == start + j * inc;
    PyInt.MulLess(i, j, inc);
  }
}

=== FILE: headroom.dfy ===
/** The headroom added to a chart's high watermark before it becomes the
    normalisation denominator: round up to a multiple of ten and add a
    quarter, itself rounded up. */
module Headroom {
  import PyInt

  /** `round_up_to_nearest_ten`: adds to `v` the distance from its remainder
      modulo ten (never negative in Python) up to ten. A multiple of ten
      still moves up by ten. */
  function RoundUpToNearestTen(v: int): (r: int)
    ensures r % 10 == 0
    ensures v < r <= v + 10
  {
    v + (10 - v % 10)
  }

  /** The rounding gives the least multiple of ten strictly above `v`. */
  lemma RoundUpIsLeastMultipleAbove(v: int, m: int)
    requires m % 10 == 0 && m > v
    ensures RoundUpToNearestTen(v) <= m
  {
  }

  /** `round_up_to_nearest_ten(int(.25 * hw))`: a quarter of the watermark,
      truncated toward zero, then rounded up. */
  function QuarterBuffer(hw: int): int {
    RoundUpToNearestTen(PyInt.TruncDiv(hw, 4))
  }

  lemma SumOfTens(a: int, b: int)
    requires a % 10 == 0 && b % 10 == 0
    ensures (a + b) % 10 == 0
  {
    assert a == 10 * (a / 10) && b == 10 * (b / 10);
    assert a + b == 10 * (a / 10 + b / 10);
  }

  /** The buffered high watermark of both chart builders; it stays on the
      y-grid's multiples of ten. */
  function BufferedHighWater(hw: int): (r: int)
    ensures r % 10 == 0
  {
    var whole := RoundUpToNearestTen(hw);
    var quarter := QuarterBuffer(hw);
    SumOfTens(whole, quarter);
    whole + quarter
  }

  /** For a non-negative watermark the buffer clears it by more than a
      quarter: the tallest bar stays below four fifths of the chart. */
  lemma BufferedAboveWatermark(hw: int)
    requires hw >= 0
    ensures hw < BufferedHighWater(hw)
    ensures 5 * hw < 4 * BufferedHighWater(hw)
  {
    var q := PyInt.TruncDiv(hw, 4);
    assert hw < 4 * q + 4;
    assert q < QuarterBuffer(hw);
  }

  /** The buffered watermark is zero, so that the y-grid division raises,
      exactly when the unbuffered one lies in `[-10, -4]`. */
  lemma BufferedZeroIff(hw: int)
    ensures BufferedHighWater(hw) == 0 <==> -10 <= hw <= -4
  {
    var q := PyInt.TruncDiv(hw, 4);
    if hw >= 0 {
      assert q >= 0;
    } else if hw <= -11 {
      assert RoundUpToNearestTen(hw) <= -10 + 10 - 10;
      assert q <= 0;
    } else if hw >= -3 {
      assert q == 0;
    } else {
      assert -10 <= hw <= -4;
      assert -3 <= q <= -1;
    }
  }
}

=== FILE: labels.dfy ===
/** Date labels for the x axis and their decimation so that they do not
    draw over each other. The label text itself (an hour such as "7:00" or
    a day such as "3 Mar") is host formatting; a label here records which
    of the two styles was chosen and for which instant. */
module Labels {
  import opened Results
  import PyInt

  /** Pixels assumed per drawn label. */
  const LabelWidthGuess: int := 100

  /** Ranges shorter than 36 hours get hour-of-day labels. */
  const HourStyleLimit: int := 36 * 60 * 60

  datatype Label = Blank | HourOfDay(at: int) | DayAndMonth(at: int)

  /** `date_label_format`. */
  function DateLabel(start: int, end: int, t: int): Label {
    if end - start < HourStyleLimit then HourOfDay(t) else DayAndMonth(t)
  }

  /** The label list built from the enumerated dates: one label per bucket,
      all in the style the length of the whole range selects. */
  function DateLabels(start: int, end: int, dates: seq<int>): (r: seq<Label>)
    ensures |r| == |dates|
    ensures forall i :: 0 <= i < |r| ==> !r[i].Blank? && r[i].at == dates[i]
    ensures forall i :: 0 <= i < |r| ==> (r[i].HourOfDay? <==> end - start < HourStyleLimit)
  {
    seq(|dates|, i requires 0 <= i < |dates| => DateLabel(start, end, dates[i]))
  }

  datatype Decimated = Decimated(labels: seq<Label>, skip: int)

  /** `processLabels`: the stride `skip` is the label count divided by the
      number of 100-pixel slots, both divisions flooring; a width in
      `[0, 100)` leaves no slot and raises. A non-zero `skip` blanks every
      label whose index is not a multiple of it. */
  function ProcessLabels(labels: seq<Label>, chartWidth: int): (r: Result<Decimated>)
    ensures r.Err? <==> 0 <= chartWidth < LabelWidthGuess
    ensures r.Err? ==> r.error == DivideByZero
    ensures r.Ok? ==> |r.value.labels| == |labels|
    ensures r.Ok? && |labels| > 0 ==> r.value.labels[0] == labels[0]
    ensures r.Ok? && r.value.skip == 0 ==> r.value.labels == labels
    ensures r.Ok? && r.value.skip != 0 ==>
              forall i :: 0 <= i < |labels| ==>
                r.value.labels[i] == (if i % r.value.skip == 0 then labels[i] else Blank)
    ensures r.Ok? && chartWidth >= LabelWidthGuess ==>
              r.value.skip == |labels| / (chartWidth / LabelWidthGuess)
    ensures r.Ok? && chartWidth < 0 ==> r.value.skip <= 0
  {
    var fit := PyInt.FloorDiv(chartWidth, LabelWidthGuess);
    if fit == 0 then Err(DivideByZero)
    else
      var skip := PyInt.FloorDiv(|labels|, fit);
      if skip == 0 then Ok(Decimated(labels, skip))
      else
        var kept := seq(|labels|, i requires 0 <= i < |labels| =>
                          if PyInt.FloorMod(i, skip) != 0 then Blank else labels[i]);
        Ok(Decimated(kept, skip))
  }

  /** With at least one slot, the stride is zero exactly when there are
      fewer labels than slots. */
  lemma SkipZeroIffAllFit(labels: seq<Label>, chartWidth: int)
    requires chartWidth >= LabelWidthGuess
    ensures ProcessLabels(labels, chartWidth).Ok?
    ensures ProcessLabels(labels, chartWidth).value.skip == 0 <==>
              |labels| < chartWidth / LabelWidthGuess
  {
    var fit := chartWidth / LabelWidthGuess;
    var skip := ProcessLabels(labels, chartWidth).value.skip;
    assert skip == |labels| / fit;
    PyInt.NonNegDiv(|labels|, fit);
    if |labels| < fit {
      PyInt.MulCancelLess(skip, 1, fit);
    }
  }

  /** Because the stride rounds down, a stride of one keeps every label too:
      labels that are all drawn stay untouched exactly when there are fewer
      than twice as many as slots. */
  lemma NothingBlankedIff(labels: seq<Label>, chartWidth: int)
    requires chartWidth >= LabelWidthGuess
    requires forall i :: 0 <= i < |labels| ==> !labels[i].Blank?
    ensures ProcessLabels(labels, chartWidth).Ok?
    ensures ProcessLabels(labels, chartWidth).value.labels == labels <==>
              |labels| < 2 * (chartWidth / LabelWidthGuess)
  {
    var fit := chartWidth / LabelWidthGuess;
    var d := ProcessLabels(labels, chartWidth).value;
    var skip := d.skip;
    assert skip == |labels| / fit;
    PyInt.NonNegDiv(|labels|, fit);
    assert (skip + 1) * fit == skip * fit + fit;
    if |labels| < 2 * fit {
      PyInt.MulCancelLess(skip, 2, fit);
      if skip == 1 {
        assert forall i :: 0 <= i < |labels| ==> d.labels[i] == labels[i];
      }
    } else {
      PyInt.MulCancelLess(1, skip, fit);
      assert d.labels[1] == Blank != labels[1];
    }
  }

  /** How many labels are not blank. */
  function Shown(labels: seq<Label>): nat
    decreases |labels|
  {
    if labels == [] then 0
    else Shown(labels[..|labels| - 1]) + (if labels[|labels| - 1].Blank? then 0 else 1)
  }

  /** How many of the indices below `m` are multiples of `skip`. */
  function Multiples(m: nat, skip: int): nat
    requires skip > 0
  {
    if m == 0 then 0 else Multiples(m - 1, skip) + (if (m - 1) % skip == 0 then 1 else 0)
  }

  /** One more index keeps `c` the ceiling of `x / skip`, or raises it by
      one when `x` itself is a multiple. */
  lemma CeilStep(x: int, c: int, skip: int)
    requires skip > 0 && (c - 1) * skip < x <= c * skip
    ensures x % skip == 0 ==> c * skip < x + 1 <= (c + 1) * skip
    ensures x % skip != 0 ==> (c - 1) * skip < x + 1 <= c * skip
  {
    var q := x / skip;
    assert x == q * skip + x % skip;
    assert (q + 1) * skip == q * skip + skip;
    assert (c + 1) * skip == c * skip + skip;
    PyInt.MulCancelLess(c - 1, q, skip);
    PyInt.MulCancelLess(q, c + 1, skip);
    PyInt.MulCancelLess(c - 1, q + 1, skip);
    PyInt.MulCancelLess(q, c, skip);
  }

  /** There are `ceil(m / skip)` multiples of `skip` below `m`. */
  lemma {:induction false} MultiplesCeil(m: nat, skip: int)
    requires skip > 0
    ensures (Multiples(m, skip) - 1) * skip < m <= Multiples(m, skip) * skip
  {
    if m > 0 {
      MultiplesCeil(m - 1, skip);
      CeilStep(m - 1, Multiples(m - 1, skip), skip);
    }
  }

  lemma {:induction false} ShownPrefix(labels: seq<Label>, skip: int, out: seq<Label>, m: nat)
    requires skip > 0 && |out| == |labels| && m <= |labels|
    requires forall i :: 0 <= i < |labels| ==> !labels[i].Blank?
    requires forall i :: 0 <= i < |labels| ==>
               out[i] == (if i % skip == 0 then labels[i] else Blank)
    ensures Shown(out[..m]) == Multiples(m, skip)
    decreases m
  {
    if m > 0 {
      ShownPrefix(labels, skip, out, m - 1);
      assert out[..m][..m - 1] == out[..m - 1];
    }
  }

  /** Decimating labels that are all drawn leaves `ceil(n / skip)` of them
      drawn: the indices `0, skip, 2*skip, ...`. */
  lemma ShownAfterDecimation(labels: seq<Label>, chartWidth: int)
    requires forall i :: 0 <= i < |labels| ==> !labels[i].Blank?
    requires ProcessLabels(labels, chartWidth).Ok?
    requires ProcessLabels(labels, chartWidth).value.skip > 0
    ensures var d := ProcessLabels(labels, chartWidth).value;
            (Shown(d.labels) - 1) * d.skip < |labels| <= Shown(d.labels) * d.skip
  {
    var d := ProcessLabels(labels, chartWidth).value;
    ShownPrefix(labels, d.skip, d.labels, |labels|);
    assert d.labels[..|labels|] == d.labels;
    MultiplesCeil(|labels|, d.skip);
  }

  lemma CeilBelowTwiceCapacity(n: int, fit: int, k: int, sh: int)
    requires fit >= 1 && k >= 1
    requires n < (k + 1) * fit
    requires (sh - 1) * k < n
    ensures sh < 2 * fit
  {
    assert (k + 1) * fit == k * fit + fit;
    assert (2 * fit - 1) * k == 2 * (k * fit) - k;
    assert (fit - 1) * (k - 1) == k * fit - fit - k + 1;
    PyInt.MulNonNegative(fit - 1, k - 1);
    PyInt.MulCancelLess(sh - 1, 2 * fit - 1, k);
  }

  lemma FloorQuotientBound(n: int, d: int)
    requires d > 0
    ensures n < (n / d + 1) * d
  {
    assert n == (n / d) * d + n % d;
    assert (n / d + 1) * d == (n / d) * d + d;
  }

  /** Because `skip` is rounded down, decimation can leave more labels than
      fit, but always fewer than twice as many. */
  lemma ShownBelowTwiceCapacity(labels: seq<Label>, chartWidth: int)
    requires forall i :: 0 <= i < |labels| ==> !labels[i].Blank?
    requires chartWidth >= LabelWidthGuess
    requires ProcessLabels(labels, chartWidth).value.skip > 0
    ensures Shown(ProcessLabels(labels, chartWidth).value.labels) < 2 * (chartWidth / LabelWidthGuess)
  {
    var d := ProcessLabels(labels, chartWidth).value;
    var fit := chartWidth / LabelWidthGuess;
    ShownAfterDecimation(labels, chartWidth);
    FloorQuotientBound(|labels|, fit);
    CeilBelowTwiceCapacity(|labels|, fit, d.skip, Shown(d.labels));
  }

  /** Five labels on a 300-pixel chart: capacity three, yet `skip` is one
      and all five stay drawn. */
  lemma FiveLabelsInThreeSlots()
    ensures var labels := seq(5, i => DayAndMonth(i));
            ProcessLabels(labels, 300) == Ok(Decimated(labels, 1))
  {
    var labels := seq(5, i => DayAndMonth(i));
    var d := ProcessLabels(labels, 300).value;
    assert d.labels == labels;
  }
}

=== FILE: pyint.dfy ===
/** Python 2 integer semantics that differ from Dafny's: floor division and
    modulo, truncation of a float toward zero by `int()`, and list indexing
    with negative indices. */
module PyInt {
  import opened Results

  /** `a / b` on Python 2 ints: the quotient rounded toward negative infinity. */
  function FloorDiv(a: int, b: int): (q: int)
    requires b != 0
    ensures b > 0 ==> b * q <= a < b * q + b
    ensures b < 0 ==> b * q + b < a <= b * q
  {
    if b > 0 || a % b == 0 then a / b else a / b - 1
  }

  /** `a % b` on Python 2 ints: the remainder takes the sign of the divisor. */
  function FloorMod(a: int, b: int): (m: int)
    requires b != 0
    ensures b > 0 ==> 0 <= m < b
    ensures b < 0 ==> b < m <= 0
    ensures m == 0 <==> a % b == 0
  {
    FloorModZeroIff(a, b);
    a - b * FloorDiv(a, b)
  }

  /** Python's remainder is zero exactly when `b` divides `a`, as Dafny's is. */
  lemma FloorModZeroIff(a: int, b: int)
    requires b != 0
    ensures a - b * FloorDiv(a, b) == 0 <==> a % b == 0
  {
    assert a == b * (a / b) + a % b;
    if b > 0 || a % b == 0 {
      assert a - b * FloorDiv(a, b) == a % b;
    } else {
      assert a - b * FloorDiv(a, b) == a - b * (a / b - 1) == a % b + b;
    }
  }

  /** Dafny's division of a non-negative by a positive number. */
  lemma NonNegDiv(a: int, b: int)
    requires a >= 0 && b > 0
    ensures a / b >= 0 && 0 <= b * (a / b) <= a < b * (a / b) + b
  {
    var q := a / b;
    assert a == b * q + a % b;
    MulNonNegative(q, b);
  }

  lemma NegateProduct(b: int, p: int)
    ensures b * -p == -(b * p)
  {
  }

  /** `int(x)` of a float holding `a / b`: the quotient truncated toward zero. */
  function TruncDiv(a: int, b: int): (q: int)
    requires b > 0
    ensures 0 <= a ==> 0 <= b * q <= a < b * q + b
    ensures a < 0 ==> b * q - b < a <= b * q <= 0
  {
    if a >= 0 then
      NonNegDiv(a, b);
      a / b
    else
      var p := (-a) / b;
      NonNegDiv(-a, b);
      NegateProduct(b, p);
      -p
  }

  /** Multiplying by a positive factor preserves strict order. */
  lemma MulLess(a: int, b: int, c: int)
    ensures a < b && c > 0 ==> a * c < b * c
    decreases if a < b then b - a else 0
  {
    if a < b && c > 0 {
      assert b * c == (b - 1) * c + c;
      MulLess(a, b - 1, c);
    }
  }

  /** A strict order between multiples of a positive factor is one between
      the multiplicands. */
  lemma MulCancelLess(a: int, b: int, c: int)
    ensures c > 0 && a * c < b * c ==> a < b
  {
    MulLess(b, a, c);
  }

  lemma MulNonNegative(a: int, b: int)
    ensures a >= 0 && b >= 0 ==> a * b >= 0
  {
    MulLess(0, a, b);
  }

  /** Resolving index `i` of a Python list of length `n`: a negative index
      counts from the end, anything else outside the list raises IndexError. */
  function PyIndex(i: int, n: nat): (r: Result<nat>)
    ensures r.Ok? <==> -(n as int) <= i < n
    ensures r.Err? ==> r.error == IndexOutOfRange
    ensures r.Ok? ==> r.value < n && r.value == i % n
  {
    if 0 <= i < n then Ok(i)
    else if -(n as int) <= i < 0 then Ok(n + i)
    else Err(IndexOutOfRange)
  }
}

=== FILE: results.dfy ===
/** The failures the metrics helpers can raise, and a failure-compatible
    result type so that the pipeline can propagate them with `:-`. */
module Results {

  /** InvalidRange: the `start_date < end_date` assertion fails.
      DivideByZero: a Python ZeroDivisionError.
      IndexOutOfRange: a Python IndexError on a bucket array. */
  datatype Error = InvalidRange | DivideByZero | IndexOutOfRange

  datatype Result<+T> = Ok(value: T) | Err(error: Error) {

    predicate IsFailure() {
      Err?
    }

    function PropagateFailure<U>(): Result<U>
      requires Err?
    {
      Err(error)
    }

    function Extract(): T
      requires Ok?
    {
      value
    }
  }
}

=== FILE: timedelta.dfy ===
/** Python `timedelta` values as the helpers use them: a normalised triple of
    days, seconds and microseconds, and the conversion to whole seconds. */
module TimeDelta {

  const SecondsPerDay: int := 86400
  const MicrosPerSecond: int := 1000000

  /** A `timedelta` keeps `0 <= seconds < 86400` and
      `0 <= microseconds < 1000000`; only `days` carries the sign. */
  datatype Duration = Duration(days: int, seconds: int, microseconds: int)

  predicate Normalized(d: Duration) {
    0 <= d.seconds < SecondsPerDay && 0 <= d.microseconds < MicrosPerSecond
  }

  /** The exact length of the duration. */
  function TotalMicroseconds(d: Duration): int {
    (d.days * SecondsPerDay + d.seconds) * MicrosPerSecond + d.microseconds
  }

  /** `timedelta_to_seconds`: the length in whole seconds, rounded toward
      negative infinity (the microseconds are dropped). */
  function TimedeltaToSeconds(d: Duration): (s: int)
    requires Normalized(d)
    ensures s * MicrosPerSecond <= TotalMicroseconds(d) < (s + 1) * MicrosPerSecond
  {
    d.seconds + d.days * SecondsPerDay
  }

  /** `timedelta(seconds=s)`: the normalised duration of `s` whole seconds. */
  function FromSeconds(s: int): (d: Duration)
    ensures Normalized(d) && d.microseconds == 0
    ensures TotalMicroseconds(d) == s * MicrosPerSecond
  {
    Duration(s / SecondsPerDay, s % SecondsPerDay, 0)
  }

  /** Converting whole seconds to a `timedelta` and back is the identity. */
  lemma SecondsRoundTrip(s: int)
    ensures TimedeltaToSeconds(FromSeconds(s)) == s
  {
    var d := FromSeconds(s);
    assert TotalMicroseconds(d) == TimedeltaToSeconds(d) * MicrosPerSecond;
  }

  /** A normalised whole-second `timedelta` is rebuilt exactly from its seconds. */
  lemma DurationRoundTrip(d: Duration)
    requires Normalized(d) && d.microseconds == 0
    ensures FromSeconds(TimedeltaToSeconds(d)) == d
  {
    var s := TimedeltaToSeconds(d);
    assert s == d.days * SecondsPerDay + d.seconds;
    assert s / SecondsPerDay == d.days;
    assert s % SecondsPerDay == d.seconds;
  }

  /** An increment yields a positive bucket width exactly when it lasts at
      least one second; a sub-second increment gives width zero. */
  lemma PositiveWidthIff(d: Duration)
    requires Normalized(d)
    ensures TimedeltaToSeconds(d) > 0 <==> TotalMicroseconds(d) >= MicrosPerSecond
  {
    var s := TimedeltaToSeconds(d);
    if s > 0 {
      assert s * MicrosPerSecond >= MicrosPerSecond;
    } else {
      assert (s + 1) * MicrosPerSecond <= MicrosPerSecond;
    }
  }
}

=== FILE: watermarks.dfy ===
/** Running high and low watermarks: the high one moves up to any larger
    value and the low one down to any smaller value, value by value,
    starting from the `-sys.maxint` and `sys.maxint` sentinels. */
module Watermarks {

  /** `sys.maxint` of a 64-bit CPython 2. */
  const MaxInt: int := 0x7FFF_FFFF_FFFF_FFFF

  function Raise(hw: int, x: int): int {
    if x > hw then x else hw
  }

  function Lower(lw: int, x: int): int {
    if x < lw then x else lw
  }

  /** Raising `hw` by every value of `xs` in turn gives the maximum of `hw`
      and the values. */
  function RaiseAll(hw: int, xs: seq<int>): (r: int)
    decreases |xs|
    ensures r >= hw
    ensures forall i :: 0 <= i < |xs| ==> xs[i] <= r
    ensures r == hw || exists i :: 0 <= i < |xs| && xs[i] == r
  {
    if xs == [] then hw else RaiseAll(Raise(hw, xs[0]), xs[1..])
  }

  /** Lowering `lw` by every value of `xs` in turn gives the minimum of `lw`
      and the values. */
  function LowerAll(lw: int, xs: seq<int>): (r: int)
    decreases |xs|
    ensures r <= lw
    ensures forall i :: 0 <= i < |xs| ==> r <= xs[i]
    ensures r == lw || exists i :: 0 <= i < |xs| && xs[i] == r
  {
    if xs == [] then lw else LowerAll(Lower(lw, xs[0]), xs[1..])
  }

  /** With no values the sentinels are returned untouched; once some value
      reaches the sentinel range the result is exactly the largest value. */
  lemma RaiseAllFromSentinel(xs: seq<int>)
    ensures xs == [] ==> RaiseAll(-MaxInt, xs) == -MaxInt
    ensures (exists i :: 0 <= i < |xs| && xs[i] >= -MaxInt) ==>
              exists i :: 0 <= i < |xs| && xs[i] == RaiseAll(-MaxInt, xs)
  {
    var r := RaiseAll(-MaxInt, xs);
    if r == -MaxInt && exists i :: 0 <= i < |xs| && xs[i] >= -MaxInt {
      var i :| 0 <= i < |xs| && xs[i] >= -MaxInt;
      assert xs[i] == r;
    }
  }
}
